=== FILE: README.md ===
# Socialworth in Dafny

A model of `BenAllfree\Socialworth`, a PHP class that asks several social
networks how often a web address was shared and adds the answers into a
total. The model covers the whole class except the HTTP transport and the items
under Left out:

- **Service catalog** (`catalog.dfy`, module `Catalog`): the eight services
  of `apiEndpoints()` (twitter, facebook, pinterest, reddit, stumbleupon,
  linkedin, hackernews, testcase), the order of the default `$services` map,
  the case-insensitive name resolution of `__get`, and each service's request
  URL for a target address.
- **Response callbacks** (`parsers.dfy`, module `Parsers`): one function per
  service from a decoded JSON response to a count. Missing, null or falsy
  fields give 0. reddit sums `data.ups` over `data.children`. hackernews sums
  `1 + points + num_comments` over `results`. testcase returns its input.
- **PHP value semantics** (`php_values.dfy`, module `PhpValues`): decoded
  JSON values with `isset`, truthiness, the `(int)` cast and `foreach`.
- **Endpoint clean-up** (`endpoint.dfy`, module `Endpoint`): `rtrim($endpoint, '?&')`.
- **Configuration** (`config.dfy`, module `Config`): the object state
  `(url, services)`, the constructor, `url()`, `__set`, `__unset`, `__isset`.
- **Dispatch** (`dispatch.dfy`, module `Dispatch`): `apiRequest`'s
  missing-address guard, `__get`, `__call`, `__callStatic` and `all()`.
- `wrappers.dfy` and `errors.dfy`: `Option`, `Result`, and the `Error` type.
  `Error` has one constructor for each exception the modelled entry points can
  throw: invalid URL, missing address, unknown service. Two more constructors
  stand for a failing HTTP client and for PHP refusing to add a value to the
  total. The "Argument expected to be a service name" exception at
  src/Socialworth.php:106-108 is not modelled (see Left out).

The HTTP client, the two URL validators (the validation library's `Url` rule
and `filter_var(..., FILTER_VALIDATE_URL)`) and `urlencode` are parameters.
They are bundled in `Dispatch.Env`. The fetch function maps the trimmed
request URL to the decoded body, or to None when the transport fails.

Behaviour of the code worth knowing:

- `__call` restores the previous address only when the query returns normally.
  A throwing query leaves the override in place; see Findings.
- `__callStatic` throws "You must specify an address to query." when the
  argument is missing or fails `filter_var`. It throws `InvalidUrl` only when
  the constructor's validator rejects an address that `filter_var` accepted.
- `all()` has no per-service error handling. The first exception (missing
  address, transport failure, a passthrough value PHP cannot add) ends the
  whole call.
- `__set`, `__unset` and `__isset` use the name exactly as given. Only
  `__get` lower-cases it.

## Model

| member | source | states |
|---|---|---|
| PhpValues.ToInt | src/Socialworth.php:225-227 | `(int)` returns a JSON integer unchanged. A falsy value casts to 0. A non-empty array or object casts to 1. |
| PhpValues.Truthy | src/Socialworth.php:199 | Null is falsy. An integer is truthy exactly when it is not 0. A list or object is truthy exactly when it is not empty. |
| PhpValues.Lookup | src/Socialworth.php:225 | A key is found exactly when some member has that name. The value found belongs to a member with that name that no later member repeats. |
| PhpValues.Field | src/Socialworth.php:225 | `isset($v[key])` holds exactly for an object whose member of that name is present and not null, and then gives that member's value. An object without the key gives nothing. |
| PhpValues.FieldKeepsLast | src/Socialworth.php:225 | When a document repeats a key, the value read is the last one. |
| PhpValues.First | src/Socialworth.php:199 | `isset($v[0])` holds exactly for a non-empty list whose first element is not null, and gives that element. |
| PhpValues.MemberKeys | src/Socialworth.php:258 | The keys of a decoded object: every member name exactly once, and nothing else. |
| PhpValues.MemberKeysPrefix | src/Socialworth.php:258 | The keys of a prefix of the document come first, in the same order, so each key sits at its first occurrence. |
| PhpValues.Elements | src/Socialworth.php:258 | `foreach` visits a list's items in order. For an object it visits one value per distinct key, in first-occurrence order, and that value is the last one given for the key. For a scalar it visits nothing. |
| PhpValues.TruthyIffVisits | src/Socialworth.php:255-258 | A list or object is truthy exactly when `foreach` has something to visit in it. |
| PhpValues.ElementsVisitsKeyOnce | src/Socialworth.php:258 | An object that gives a key twice is visited once, with the later value. |
| Endpoint.RTrim | src/Socialworth.php:167 | The trimmed endpoint is a prefix of the input. It does not end in `?` or `&`. Every character removed is a `?` or `&`. |
| Endpoint.RTrimUnique | src/Socialworth.php:167 | Any prefix with those three properties is the trimmed endpoint, so the trim is the longest such prefix. |
| Endpoint.RTrimIdempotent | src/Socialworth.php:167 | Trimming again changes nothing. |
| Endpoint.RTrimBehindPrefix | src/Socialworth.php:167 | Behind a non-empty prefix that ends in a kept character, trimming acts only on the appended part. |
| Catalog.TrimmedRequestUrl | src/Socialworth.php:207-272 | For the six `prefix . url` services, the trim strips trailing `?`/`&` from the target address only. The fixed prefix is never touched. |
| Catalog.TrimmedTestcaseUrl | src/Socialworth.php:188 | The testcase host needs no trimming. |
| Catalog.RequestUrl | src/Socialworth.php:186-272 | Each prefix service's request URL is its fixed prefix followed by the target address. testcase uses a fixed bogus host. |
| Catalog.LowerStr | src/Socialworth.php:95 | `strtolower` keeps the length and lower-cases each ASCII capital. |
| Catalog.LowerStrIdempotent | src/Socialworth.php:95 | Lower-casing twice is lower-casing once. |
| Catalog.NameIsLower | src/Socialworth.php:186-272 | Every catalog key is already lower case. |
| Catalog.FromName | src/Socialworth.php:98 | The exact-key lookup finds a service exactly when the name is that service's key. |
| Catalog.Resolve | src/Socialworth.php:94-103 | A name resolves to service `s` exactly when its lower-cased form is `s`'s key. |
| Catalog.ResolveIgnoresCase | src/Socialworth.php:95-98 | Names that differ only in letter case resolve alike. |
| Catalog.ResolveName | src/Socialworth.php:95-99 | Every casing of a catalog key resolves to that service. |
| Catalog.NameInjective | src/Socialworth.php:186-293 | Distinct services have distinct keys. |
| Catalog.OrderComplete | src/Socialworth.php:15-24 | The default key order lists every service exactly once. |
| Parsers.Callback | src/Socialworth.php:187-292 | Every callback except testcase returns an integer. testcase returns its response unchanged. |
| Parsers.CountAt | src/Socialworth.php:225-227 | A present, truthy field gives its `(int)` value. An absent or falsy field gives 0. |
| Parsers.IntAt | src/Socialworth.php:259-261 | A field that is set gives its `(int)` value, even when falsy. An unset field gives 0. |
| Parsers.Ups | src/Socialworth.php:259-261 | A reddit story without `data.ups` adds 0. An integer `ups` adds itself. |
| Parsers.SumUps | src/Socialworth.php:258-262 | The loop's running total ends as the sum of what each story adds (`Ups` of each story, in order). |
| Parsers.SumUpsNonNegative | src/Socialworth.php:258-262 | When no story has negative `ups`, the sum is not negative. |
| Parsers.Score | src/Socialworth.php:279-285 | A hackernews result without `item` scores 1. Otherwise it scores 1 plus its integer `points` and `num_comments`, each counted only when set. |
| Parsers.SumScores | src/Socialworth.php:278-286 | The loop's running total ends as the sum of what each result adds (`Score` of each result, in order). |
| Parsers.FacebookCount | src/Socialworth.php:194-205 | A response without `data[0].total_count` gives 0. An integer there is the count. |
| Parsers.CountField | src/Socialworth.php:207-238 | For twitter, linkedin and pinterest, a response that is not an object or has no `count` gives 0. An integer `count` is the count. |
| Parsers.StumbleUponCount | src/Socialworth.php:240-249 | A response without `result.views` gives 0. An integer there is the count. |
| Parsers.RedditCount | src/Socialworth.php:251-269 | Without `data.children` the count is 0. Otherwise it is the loop sum over whatever `foreach` visits in `children`. The truthiness test never changes the answer. |
| Parsers.HackerNewsCount | src/Socialworth.php:271-291 | Without `results` the count is 0. Otherwise it is the loop sum over whatever `foreach` visits in `results`. Neither truthiness test changes the answer. |
| Parsers.ScalarRoundTrip | src/Socialworth.php:194-249 | twitter, linkedin and pinterest (`count`), facebook (`data[0].total_count`) and stumbleupon (`result.views`) read back any integer count they are sent. That includes 0. |
| Parsers.FacebookExamples | src/Socialworth.php:196-204 | `{"data":[{"total_count":42}]}` gives 42. `{"data":[{}]}` gives 0. |
| Parsers.SumUpsAppend | src/Socialworth.php:255-264 | The reddit sum over concatenated child lists is the sum of the two parts. |
| Parsers.SumUpsSkipsMissing | src/Socialworth.php:258-262 | A reddit child without `data.ups` adds nothing. |
| Parsers.SumUpsOfChildren | src/Socialworth.php:258-262 | Over children built from a list of `ups` values, the loop's sum is the sum of that list. |
| Parsers.RedditRoundTrip | src/Socialworth.php:251-268 | A reddit reply built from any list of `ups` values reads back their sum. The empty list gives 0. |
| Parsers.RedditExample | src/Socialworth.php:253-268 | Children with 3 and 5 ups give 8. |
| Parsers.HackerNewsDecomposes | src/Socialworth.php:276-288 | The hackernews sum is the number of results, plus all points, plus all comments. |
| Parsers.HackerNewsRoundTrip | src/Socialworth.php:271-291 | A hackernews reply built from any list of (points, comments) reads back that decomposition. |
| Parsers.SumScoresAtLeastResults | src/Socialworth.php:278-286 | If no result has negative points or comments, the sum is at least the number of results. |
| Parsers.ScoreWithoutItem | src/Socialworth.php:279-285 | A result without `item` still scores 1. |
| Parsers.RedditRepeatedKey | src/Socialworth.php:258-262 | A `children` object giving key `a` twice, first with 3 ups and then with 5, counts 5. |
| Parsers.RedditEmptyCountsZero | src/Socialworth.php:255-268 | Absent, null or empty (`[]` or `{}`) `data.children` gives 0, whether or not `data` is present. |
| Parsers.HackerNewsEmptyCountsZero | src/Socialworth.php:276-290 | Absent, null or empty (`[]` or `{}`) `results` gives 0. |
| Parsers.HackerNewsExample | src/Socialworth.php:273-291 | One result with 2 points and 1 comment gives 4. |
| Config.DefaultsMatchCatalog | src/Socialworth.php:15-24 | The default map has exactly the catalog keys. hackernews and testcase are off; the rest are on. |
| Config.Url | src/Socialworth.php:44-59 | A falsy argument (null, "", "0") returns the stored address and changes nothing. A truthy valid one is stored. A truthy invalid one fails with `InvalidUrl`. The enable map never changes. |
| Config.UrlSetThenGet | src/Socialworth.php:44-59 | After storing an address, reading returns that address. |
| Config.AllOff | src/Socialworth.php:36 | Every default key is present and switched off. |
| Config.EnableAll | src/Socialworth.php:38-40 | Every listed name is on, including names outside the catalog, which become new keys. Every other key keeps its flag. |
| Config.Construct | src/Socialworth.php:31-42 | The constructor fails exactly when `url()` would. An empty list keeps the defaults. A non-empty list turns on exactly the listed names. Every other catalog key is off. |
| Config.ConstructWellFormed | src/Socialworth.php:31-42 | Every constructed object has a flag for every catalog service. |
| Config.ConstructRestricts | src/Socialworth.php:29-42 | `['twitter', 'linkedin']` enables those two and disables the other six. |
| Config.Enabled | src/Socialworth.php:67 | The `$enabled` test of `all()` holds exactly when `__isset` holds for the service's key. |
| Config.Isset | src/Socialworth.php:114-121 | Returns the stored flag of a known key. Returns false for an unknown key. |
| Config.Set | src/Socialworth.php:82-90 | A known key stores `(bool)$enabled` and returns true. An unknown key returns false and leaves the object unchanged. No other key and not the address changes. |
| Config.Unset | src/Socialworth.php:123-132 | A known key is switched off and the call returns true. An unknown key returns false and leaves the object unchanged. Nothing else changes. |
| Config.SetThenIsset | src/Socialworth.php:82-121 | After `__set`, `__isset` reports the stored value for that name. It reports the old answer for every other name. |
| Config.UnsetThenIsset | src/Socialworth.php:114-132 | After `__unset`, `__isset` is false for that name. Other names are unchanged. |
| Config.UnsetIdempotent | src/Socialworth.php:123-132 | A second `__unset` has the same result and answer as the first. |
| Config.TogglesKeepWellFormed | src/Socialworth.php:82-132 | `__set` and `__unset` never remove a catalog key. |
| Config.TogglesIgnoreOtherCase | src/Socialworth.php:82-132 | `Twitter` is not a key of the default map, so the toggles refuse it and `__isset` is false. |
| Dispatch.ApiRequest | src/Socialworth.php:157-167 | With no stored address, the call fails with `NoAddress` before any fetch. Otherwise the transport gets the endpoint with trailing `?`/`&` removed. |
| Dispatch.Query | src/Socialworth.php:110 | With no address the query fails with `NoAddress`. Otherwise it succeeds exactly when the fetch of the trimmed request URL succeeds, and the answer is the service's callback applied to the body. The only failures are `NoAddress` and transport failure. Every service except testcase answers an integer. |
| Dispatch.Get | src/Socialworth.php:92-112 | An unknown name fails with `UnknownService` carrying the lower-cased name, whatever the address. A known name runs that service's query. |
| Dispatch.GetIgnoresCase | src/Socialworth.php:94-103 | `__get` gives the same answer, or the same error, for a name and its lower-cased form. |
| Dispatch.GetErrors | src/Socialworth.php:98-103 | A catalog name with no stored address fails with `NoAddress`. An unknown name fails with `UnknownService`. |
| Dispatch.GetName | src/Socialworth.php:95-110 | `__get` on a catalog key runs that service's query. |
| Dispatch.TestcasePassesThrough | src/Socialworth.php:187-192 | With an address set, `testcase` returns the transport's body unmodified. |
| Dispatch.QueryRequestsTrimmedAddress | src/Socialworth.php:163-167 | A prefix service fetches the prefix followed by the trimmed address. It succeeds exactly when that fetch does, and its answer is an integer. |
| Dispatch.Override | src/Socialworth.php:136-140 | The first argument replaces the address only when it passes `filter_var`. |
| Dispatch.Call | src/Socialworth.php:134-145 | The answer is `__get` under the override. After a normal return the object equals the object before the call. After an exception it keeps the override. |
| Dispatch.CallUsesOverride | src/Socialworth.php:136-142 | A valid override is the address the query uses. An absent or invalid override leaves the stored address in use. |
| Dispatch.CallLeaksOverrideOnFailure | src/Socialworth.php:142-143 | An unknown name with a valid, different override throws, and the object keeps the override. |
| Dispatch.CallScoped | src/Socialworth.php:134-145 | Same answer as `__call`. The object is always left as before. |
| Dispatch.CallScopedRestores | src/Socialworth.php:134-145 | The corrected call leaves the stored address in place even when it throws. |
| Dispatch.CallStatic | src/Socialworth.php:147-155 | A missing argument, or one failing `filter_var`, fails with `NoAddress`. An argument that `filter_var` accepts but the constructor's validator rejects fails with `InvalidUrl`. |
| Dispatch.CallStaticQueries | src/Socialworth.php:147-155 | For an address both validators accept, the static entry gives what `__get` gives on a default instance holding that address. |
| Dispatch.CallStaticReadsProperties | src/Socialworth.php:153-154 | For `services`, `url` and `client`, the static entry reads the fresh instance's property instead of querying. |
| Dispatch.Numeric | src/Socialworth.php:70 | Integers add as themselves. null and booleans add as 0 or 1. Strings, arrays and objects cannot be added. |
| Dispatch.AddCount | src/Socialworth.php:70 | `total += value` succeeds exactly when the value is numeric, adding its number. Otherwise it fails with `UnsupportedOperand`. |
| Dispatch.Step | src/Socialworth.php:66-72 | A disabled service leaves the report alone. An enabled one records its answer under its key and adds it to the total, or ends the call with its error. |
| Dispatch.Collect | src/Socialworth.php:65-72 | Every failure of the loop is raised by an enabled service it visited: that service's exception, or the refusal to add its answer. |
| Dispatch.CollectComplete | src/Socialworth.php:65-72 | Over all services, each listed once, the loop succeeds exactly when every enabled answer succeeds and can be added. It then records each enabled answer under its key and sums them. |
| Dispatch.EnabledIn | src/Socialworth.php:66-67 | Contains exactly the enabled services from the visited list. |
| Dispatch.TotalOfFrame | src/Socialworth.php:69-70 | Recording a key outside a service list leaves that list's total unchanged. |
| Dispatch.LastIsNew | src/Socialworth.php:15-24 | In a list of distinct services, the last key does not occur earlier. |
| Dispatch.CollectKeys | src/Socialworth.php:64-72 | The report's keys are exactly the enabled visited services. |
| Dispatch.CollectValues | src/Socialworth.php:66-71 | Each enabled visited service's query succeeded, and its answer is what the report records. |
| Dispatch.CollectTotal | src/Socialworth.php:64-72 | `total` is the sum of the recorded values. |
| Dispatch.CollectSucceeds | src/Socialworth.php:66-72 | The loop finishes exactly when every enabled service's query succeeds with a value that can be added. |
| Dispatch.All | src/Socialworth.php:61-75 | `all()` succeeds exactly when every enabled service's query succeeds with a value PHP can add. On success the keys are exactly the enabled services, each holds that service's query answer, and `total` is the sum of those answers. |
| Dispatch.AllReport | src/Socialworth.php:61-75 | `all()` has one entry per enabled catalog service, equal to `__get` for that name. `total` is their sum. |
| Dispatch.AllSucceeds | src/Socialworth.php:61-75 | `all()` fails exactly when some enabled service's query fails or gives a value PHP cannot add. |
| Dispatch.CollectFirstFailure | src/Socialworth.php:65-72 | When the loop fails, its error is raised by the first enabled service in visiting order whose query fails or whose answer cannot be added. Every enabled service before it succeeded with an addable answer. |
| Dispatch.FirstServiceDecides | src/Socialworth.php:65-72 | When twitter, visited first, is enabled and its fetch fails, the loop throws that transport failure whatever later services would raise. |
| Dispatch.AllFirstFailure | src/Socialworth.php:61-75 | When `all()` fails, the error is that of the first enabled service, in `$services` order, whose query fails or whose answer cannot be added. |
| Dispatch.CollectNothingEnabled | src/Socialworth.php:64-72 | With nothing enabled the loop leaves `{total: 0}`. |
| Dispatch.AllNothingEnabled | src/Socialworth.php:61-75 | With nothing enabled, `all()` is `{total: 0}` with no service keys. |
| Dispatch.CollectWithoutAddress | src/Socialworth.php:66-72 | If every query fails with `NoAddress`, the loop fails with it as soon as one visited service is enabled. |
| Dispatch.AllWithoutAddress | src/Socialworth.php:159-161 | With no stored address and some service enabled, `all()` fails with `NoAddress`. |

## Findings

| source | as written | input that shows it | evidently intended | confidence | as-written member | corrected member |
|---|---|---|---|---|---|---|
| src/Socialworth.php:142-143 | `$this->url = $previous_url` runs only after `__get` returns, not in a `finally`. | `$sw->bogus('http://b.example')` on an object storing another address: `__get` throws "Unknown service bogus" and the object keeps `http://b.example`. | The previous address is back on every path. | medium; not executed | Dispatch.CallLeaksOverrideOnFailure | Dispatch.CallScopedRestores |

`Dispatch.Call` models the code as written. `Dispatch.CallScoped` is the
corrected definition.

## Left out

- HTTP transport (`setClient`, creating the client, `get`, `getBody`, `getHeader`): network I/O. The model takes `Env.fetch` as a parameter, and None stands for a transport failure.
- Content-Type sniffing, the raw body returned when it is empty, not JSON, or fails to parse (`ParseException`), and the `return false` when the client gives no response object: these depend on the HTTP library. The fetch parameter yields the decoded body, and None stands for every transport-level failure.
- `json_decode`, and the mismatch where some callbacks decode a raw string while others index a decoded array. Every callback receives an already-decoded value.
- Pinterest's `substr`/`strpos` slicing of a JSONP wrapper: raw-text handling before decoding. Pinterest is modelled on the decoded body.
- URL validation (the validation library's `Url` rule and `filter_var`) and `urlencode`: foreign functions. They are `Env` parameters.
- gettext `_()` message translation: the errors are constructors of `Errors.Error`.
- JSON floating-point numbers: the model's numbers are integers.
- PhpValues.ToInt: a string converts to 0 here. PHP uses the string's numeric prefix.
- PhpValues.Truthy: an empty JSON object is falsy, as an associative array is. In the `json_decode` object reading used by facebook, stumbleupon and hackernews, an empty object is truthy and casts to 1. That matters only for a count field holding `{}`.
- PhpValues.Field: indexing the wrong kind of container gives an absent field. PHP throws an error for `[0]` on a decoded object and for some other mismatches.
- Integer width: PHP integers are 64-bit. The sums at src/Socialworth.php:70, 260, 281 and 284 turn into floats when they overflow, and `json_decode` reads integers beyond 64 bits as floats. The model's integers are unbounded, so every sum is exact.
- Catalog.LowerStr: lower-cases ASCII capitals over characters. PHP's `strtolower` works on bytes, and before PHP 8.2 it follows the `LC_CTYPE` locale (the Turkish dotted `I`, for example). A locale-dependent lower-casing is not modelled.
- Dispatch.All: visits the services in the fixed catalog order, and only catalog keys count. `$services` is public, so a caller can assign any map, with another key order or non-boolean flags. With another order, `all()` may throw a different error first. Such direct writes are not modelled; the state changes only through the constructor and the toggles.
- Dispatch.Numeric: PHP adds numeric and leading-numeric strings to the total. Here every string is refused. Only the testcase passthrough can produce one.
- The non-string, non-array argument branch of `__get` (src/Socialworth.php:106-108): it cannot be reached through the modelled entry points, because `all()` passes endpoint entries straight to the query.
- Non-string entries in the constructor's service list: the list is modelled as strings.
- The `(Object)` cast of the `all()` result: the report is a datatype holding the per-service map and `total`.

=== FILE: catalog.dfy ===
/** The closed catalog of services `apiEndpoints()` knows: their names, the
    order of the default `$services` map, the default enablement, the
    case-insensitive name resolution `__get` performs, and each service's
    request URL for a target address. */
module Catalog {
  import opened Wrappers
  import opened Endpoint

  datatype Service =
    | Twitter | Facebook | Pinterest | Reddit | StumbleUpon | LinkedIn | HackerNews | Testcase

  /** The key of a service in `$services` and in `apiEndpoints()` */
  function Name(s: Service): string {
    match s
    case Twitter => "twitter"
    case Facebook => "facebook"
    case Pinterest => "pinterest"
    case Reddit => "reddit"
    case StumbleUpon => "stumbleupon"
    case LinkedIn => "linkedin"
    case HackerNews => "hackernews"
    case Testcase => "testcase"
  }

  /** The exact-key lookup `isset($endpoints[$name])` */
  function FromName(n: string): (r: Option<Service>)
    ensures r.Some? ==> Name(r.value) == n
    ensures r.None? ==> forall s :: Name(s) != n
  {
    if n == "twitter" then Some(Twitter)
    else if n == "facebook" then Some(Facebook)
    else if n == "pinterest" then Some(Pinterest)
    else if n == "reddit" then Some(Reddit)
    else if n == "stumbleupon" then Some(StumbleUpon)
    else if n == "linkedin" then Some(LinkedIn)
    else if n == "hackernews" then Some(HackerNews)
    else if n == "testcase" then Some(Testcase)
    else None
  }

  /** Every name is found again by the exact-key lookup, so names are distinct */
  lemma FromNameOfName(s: Service)
    ensures FromName(Name(s)) == Some(s)
  {
  }

  lemma NameInjective(a: Service, b: Service)
    requires Name(a) == Name(b)
    ensures a == b
  {
    FromNameOfName(a);
    FromNameOfName(b);
  }

  /** The keys of the default `$services` map, in declaration order */
  const Order: seq<Service> :=
    [Twitter, Facebook, Pinterest, Reddit, StumbleUpon, LinkedIn, HackerNews, Testcase]

  predicate Distinct(ss: seq<Service>) {
    forall i, j :: 0 <= i < j < |ss| ==> ss[i] != ss[j]
  }

  /** The order lists every service exactly once */
  lemma OrderComplete(s: Service)
    ensures s in Order
    ensures Distinct(Order)
  {
  }

  /** Services enabled in the default `$services` map */
  predicate DefaultEnabled(s: Service) {
    s != HackerNews && s != Testcase
  }

  /** `strtolower` on one character: ASCII upper-case letters only */
  function Lower(c: char): (r: char)
    ensures 'A' <= c <= 'Z' ==> 'a' <= r <= 'z' && r as int - c as int == 32
    ensures !('A' <= c <= 'Z') ==> r == c
  {
    if 'A' <= c <= 'Z' then (c as int + 32) as char else c
  }

  /** `strtolower` */
  function LowerStr(s: string): (r: string)
    ensures |r| == |s|
    ensures forall i :: 0 <= i < |s| ==> r[i] == Lower(s[i])
  {
    seq(|s|, i requires 0 <= i < |s| => Lower(s[i]))
  }

  /** Lower-casing twice is lower-casing once */
  lemma LowerStrIdempotent(s: string)
    ensures LowerStr(LowerStr(s)) == LowerStr(s)
  {
    var t := LowerStr(s);
    assert forall i :: 0 <= i < |t| ==> LowerStr(t)[i] == t[i];
  }

  /** The catalog names have no upper-case letter */
  lemma NameIsLower(s: Service)
    ensures LowerStr(Name(s)) == Name(s)
  {
    var n := Name(s);
    assert forall i :: 0 <= i < |n| ==> !('A' <= n[i] <= 'Z');
    assert forall i :: 0 <= i < |n| ==> LowerStr(n)[i] == n[i];
  }

  /** The name resolution of `__get`: lower-case, then look the key up */
  function Resolve(name: string): (r: Option<Service>)
    ensures r.Some? <==> exists s :: LowerStr(name) == Name(s)
    ensures forall s :: r == Some(s) <==> LowerStr(name) == Name(s)
  {
    var r := FromName(LowerStr(name));
    assert forall s :: LowerStr(name) == Name(s) ==> r == Some(s) by {
      forall s | LowerStr(name) == Name(s)
        ensures r == Some(s)
      {
        FromNameOfName(s);
      }
    }
    r
  }

  /** Names that differ only in letter case resolve to the same service */
  lemma ResolveIgnoresCase(a: string, b: string)
    requires LowerStr(a) == LowerStr(b)
    ensures Resolve(a) == Resolve(b)
  {
  }

  /** Every catalog name resolves in any casing that lower-cases to it */
  lemma ResolveName(s: Service, name: string)
    requires LowerStr(name) == Name(s)
    ensures Resolve(name) == Some(s)
  {
  }

  /** The fixed part of a request URL the target address is appended to, for
      the six services whose request is `prefix . $this->url` */
  function QueryPrefix(s: Service): Option<string> {
    match s
    case Pinterest => Some("http://api.pinterest.com/v1/urls/count.json?url=")
    case Twitter => Some("http://opensharecount.com/count.json?url=")
    case LinkedIn => Some("http://www.linkedin.com/countserv/count/share?format=json&url=")
    case StumbleUpon => Some("http://www.stumbleupon.com/services/1.01/badge.getinfo?url=")
    case Reddit => Some("http://www.reddit.com/api/info.json?url=")
    case HackerNews => Some("http://api.thriftdb.com/api.hnsearch.com/items/_search?q=&filter[fields][url]=")
    case Facebook => None
    case Testcase => None
  }

  const TestcaseUrl: string := "http://thisisbogus.supercalifragilisticexpialidocious.io"

  /** The `'url'` entry of `apiEndpoints()` for target address `url` (the
      empty string when no address is stored, as PHP interpolates null).
      `urlencode` is PHP's `urlencode`, received as a parameter. */
  function RequestUrl(s: Service, url: string, urlencode: string -> string): (r: string)
    ensures QueryPrefix(s).Some? ==> r == QueryPrefix(s).value + url
    ensures s == Testcase ==> r == TestcaseUrl
  {
    match s
    case Testcase => TestcaseUrl
    case Facebook =>
      "https://graph.facebook.com/fql?q=" +
      urlencode("SELECT like_count, total_count, share_count, click_count, comment_count FROM link_stat WHERE url = \"" + url + "\"")
    case _ => QueryPrefix(s).value + url
  }

  /** For the six prefix services the `?&` clean-up strips trailing `?` and
      `&` from the target address only, never from the fixed prefix. */
  lemma TrimmedRequestUrl(s: Service, url: string, urlencode: string -> string)
    requires QueryPrefix(s).Some?
    ensures RTrim(RequestUrl(s, url, urlencode)) == QueryPrefix(s).value + RTrim(url)
  {
    match s
    case Pinterest => BehindEquals(QueryPrefix(Pinterest).value, url);
    case Twitter => BehindEquals(QueryPrefix(Twitter).value, url);
    case LinkedIn => BehindEquals(QueryPrefix(LinkedIn).value, url);
    case StumbleUpon => BehindEquals(QueryPrefix(StumbleUpon).value, url);
    case Reddit => BehindEquals(QueryPrefix(Reddit).value, url);
    case HackerNews => BehindEquals(QueryPrefix(HackerNews).value, url);
  }

  /** A prefix ending in `=` shields itself from the trim */
  lemma BehindEquals(p: string, url: string)
    requires |p| > 0 && p[|p| - 1] == '='
    ensures RTrim(p + url) == p + RTrim(url)
  {
    RTrimBehindPrefix(p, url);
  }

  /** The testcase request URL is already clean */
  lemma TrimmedTestcaseUrl()
    ensures RTrim(TestcaseUrl) == TestcaseUrl
  {
    assert TestcaseUrl[|TestcaseUrl| - 1] == 'o';
    RTrimClean(TestcaseUrl);
  }
}

=== FILE: config.dfy ===
/** The per-instance configuration of `Socialworth`: the stored target
    address and the `$services` enable map, with the constructor, the
    `url()` getter/setter and the soft toggles `__set`, `__unset` and
    `__isset`. */
module Config {
  import opened Wrappers
  import opened Errors
  import opened PhpValues
  import opened Catalog

  /** `$this->url` (None for PHP null) and `$this->services` */
  datatype State = State(url: Option<string>, services: map<string, bool>)

  /** The default `$services` map */
  const Defaults: map<string, bool> := map[
    "twitter" := true,
    "facebook" := true,
    "pinterest" := true,
    "reddit" := true,
    "stumbleupon" := true,
    "linkedin" := true,
    "hackernews" := false,
    "testcase" := false
  ]

  /** The default map holds every catalog name, with the default flag, and
      nothing else */
  lemma DefaultsMatchCatalog()
    ensures forall s :: Name(s) in Defaults && Defaults[Name(s)] == DefaultEnabled(s)
    ensures forall k :: k in Defaults ==> FromName(k).Some?
  {
  }

  /** A freshly allocated object before the constructor body runs */
  const Initial: State := State(None, Defaults)

  /** Whether service `s` is switched on in `st`: the test `all()` applies,
      which is what `__isset` answers for the service's key */
  predicate Enabled(st: State, s: Service)
    ensures Enabled(st, s) <==> Isset(st, Name(s))
    ensures Enabled(st, s) ==> Name(s) in st.services
  {
    Name(s) in st.services && st.services[Name(s)]
  }

  /** Every catalog name keeps a flag: nothing ever removes a key */
  predicate WellFormed(st: State) {
    forall s :: Name(s) in st.services
  }

  /** PHP falsiness of the optional string argument of `url()`: null, "" and "0" */
  predicate Falsy(arg: Option<string>) {
    arg.None? || arg.value == "" || arg.value == "0"
  }

  /** What `url()` returns: the stored address, or `$this` for chaining */
  datatype UrlReply = Current(url: Option<string>) | Chained

  /** `url($url)`. A falsy argument reads the stored address; a truthy one is
      validated by `valid` (the `Url` rule of the validation library) and
      stored, or refused with `InvalidUrl` leaving the object as it was. */
  function Url(st: State, arg: Option<string>, valid: string -> bool): (r: Result<(State, UrlReply), Error>)
    ensures r.Failure? <==> !Falsy(arg) && !valid(arg.value)
    ensures r.Failure? ==> r.error == InvalidUrl
    ensures r.Success? ==> r.value.0.services == st.services
    ensures r.Success? ==> (r.value.1.Current? <==> Falsy(arg))
    ensures r.Success? && Falsy(arg) ==> r.value == (st, Current(st.url))
    ensures r.Success? && !Falsy(arg) ==> r.value.0.url == arg
  {
    if !Falsy(arg) then
      if valid(arg.value) then Success((st.(url := arg), Chained)) else Failure(InvalidUrl)
    else
      Success((st, Current(st.url)))
  }

  /** Setting an address and then reading it gives that address back, and the
      read changes nothing */
  lemma UrlSetThenGet(st: State, u: string, valid: string -> bool)
    requires !Falsy(Some(u)) && valid(u)
    ensures Url(st, Some(u), valid).Success?
    ensures var st' := Url(st, Some(u), valid).value.0;
      Url(st', None, valid) == Success((st', Current(Some(u))))
  {
  }

  /** Every catalog name switched off, as `array_fill_keys(..., false)` */
  function AllOff(): (m: map<string, bool>)
    ensures m.Keys == Defaults.Keys
    ensures forall k :: k in m ==> !m[k]
  {
    map k | k in Defaults :: false
  }

  /** The constructor's `foreach ($services as $service) $this->services[$service] = true` */
  function EnableAll(m: map<string, bool>, names: seq<string>): (r: map<string, bool>)
    ensures r.Keys == m.Keys + set n | n in names
    ensures forall n :: n in names ==> r[n]
    ensures forall k :: k in m && k !in names ==> r[k] == m[k]
  {
    if names == [] then m
    else EnableAll(m, names[..|names| - 1])[names[|names| - 1] := true]
  }

  /** `new Socialworth($url, $services)`: store the address through `url()`,
      then, for a non-empty list, switch every catalog service off and the
      listed names on (names outside the catalog are added as keys). */
  function Construct(arg: Option<string>, names: seq<string>, valid: string -> bool): (r: Result<State, Error>)
    ensures r.Failure? <==> !Falsy(arg) && !valid(arg.value)
    ensures r.Failure? ==> r.error == InvalidUrl
    ensures r.Success? ==> r.value.url == (if Falsy(arg) then None else arg)
    ensures r.Success? && names == [] ==> r.value.services == Defaults
    ensures r.Success? && names != [] ==>
      && r.value.services.Keys == Defaults.Keys + set n | n in names
      && (forall n :: n in names ==> Isset(r.value, n))
      && (forall k :: k in Defaults && k !in names ==> k in r.value.services && !Isset(r.value, k))
  {
    match Url(Initial, arg, valid)
    case Failure(e) => Failure(e)
    case Success((st, _)) =>
      if names == [] then Success(st) else Success(st.(services := EnableAll(AllOff(), names)))
  }

  /** Every constructed object is well formed */
  lemma ConstructWellFormed(arg: Option<string>, names: seq<string>, valid: string -> bool)
    requires Construct(arg, names, valid).Success?
    ensures WellFormed(Construct(arg, names, valid).value)
  {
    DefaultsMatchCatalog();
  }

  /** The documented restriction example: `['twitter', 'linkedin']` turns on
      exactly those two */
  lemma ConstructRestricts(names: seq<string>, valid: string -> bool)
    requires names == ["twitter", "linkedin"]
    ensures Construct(None, names, valid).Success?
    ensures var st := Construct(None, names, valid).value;
      && Isset(st, "twitter") && Isset(st, "linkedin")
      && !Isset(st, "facebook") && !Isset(st, "pinterest") && !Isset(st, "reddit")
      && !Isset(st, "stumbleupon") && !Isset(st, "hackernews") && !Isset(st, "testcase")
  {
    var r := Construct(None, names, valid);
    assert r.Success?;
    assert "twitter" in names && "linkedin" in names;
    var others := ["facebook", "pinterest", "reddit", "stumbleupon", "hackernews", "testcase"];
    forall k | k in others
      ensures k in Defaults && k !in names
    {
    }
  }

  /** `__isset($service)`: the stored flag of a known key, false otherwise */
  function Isset(st: State, name: string): (r: bool)
    ensures r ==> name in st.services
    ensures name in st.services ==> r == st.services[name]
  {
    name in st.services && st.services[name]
  }

  /** `__set($service, $enabled)`: a known key takes `(bool)$enabled` and the
      call answers true; an unknown key is refused with false and nothing
      changes. The name is used as given, without lower-casing. */
  function Set(st: State, name: string, value: Json): (r: (bool, State))
    ensures r.0 <==> name in st.services
    ensures r.1.url == st.url
    ensures r.1.services.Keys == st.services.Keys
    ensures r.0 ==> r.1.services[name] == Truthy(value)
    ensures forall k :: k in st.services && k != name ==> r.1.services[k] == st.services[k]
    ensures !r.0 ==> r.1 == st
  {
    if name in st.services then (true, st.(services := st.services[name := Truthy(value)]))
    else (false, st)
  }

  /** `__unset($service)`: a known key is switched off and the call answers
      true; an unknown key is refused with false and nothing changes. */
  function Unset(st: State, name: string): (r: (bool, State))
    ensures r.0 <==> name in st.services
    ensures r.1.url == st.url
    ensures r.1.services.Keys == st.services.Keys
    ensures r.0 ==> !r.1.services[name]
    ensures forall k :: k in st.services && k != name ==> r.1.services[k] == st.services[k]
    ensures !r.0 ==> r.1 == st
  {
    if name in st.services then (true, st.(services := st.services[name := false]))
    else (false, st)
  }

  /** `__isset` after `__set` reports the value just stored for that name and
      what it reported before for every other name */
  lemma SetThenIsset(st: State, name: string, value: Json, other: string)
    ensures Isset(Set(st, name, value).1, other) ==
      if other == name && name in st.services then Truthy(value) else Isset(st, other)
  {
  }

  /** `__isset` after `__unset` is false for that name and unchanged elsewhere */
  lemma UnsetThenIsset(st: State, name: string, other: string)
    ensures Isset(Unset(st, name).1, other) == if other == name then false else Isset(st, other)
  {
  }

  /** `__unset` twice is `__unset` once, and the second call answers as the first */
  lemma UnsetIdempotent(st: State, name: string)
    ensures Unset(Unset(st, name).1, name) == Unset(st, name)
  {
    if name in st.services {
      var m := Unset(st, name).1.services;
      assert m[name := false] == m;
    }
  }

  /** `__set` and `__unset` keep an object well formed */
  lemma TogglesKeepWellFormed(st: State, name: string, value: Json)
    requires WellFormed(st)
    ensures WellFormed(Set(st, name, value).1)
    ensures WellFormed(Unset(st, name).1)
  {
  }

  /** The toggles are case-sensitive: on the default map `Twitter` is not a
      key, so nothing can be changed through it */
  lemma TogglesIgnoreOtherCase(value: Json)
    ensures Set(Initial, "Twitter", value) == (false, Initial)
    ensures Unset(Initial, "Twitter") == (false, Initial)
    ensures !Isset(Initial, "Twitter")
  {
  }
}

=== FILE: dispatch.dfy ===
/** Querying services: `apiRequest` (address guard and endpoint clean-up),
    `__get` (case-insensitive resolution, then fetch and parse), `__call`
    (one-call address override), `__callStatic` (the static convenience
    entry) and `all()` (query every enabled service and sum into a total).

    The HTTP client, the two URL validators and `urlencode` are not part of
    the model; they arrive in an `Env`. */
module Dispatch {
  import opened Wrappers
  import opened Errors
  import opened PhpValues
  import opened Endpoint
  import opened Catalog
  import opened Parsers
  import opened Config

  /** The collaborators: `respectUrl` is the validation library's `Url`
      rule used by `url()`, `filterUrl` is `filter_var(..., FILTER_VALIDATE_URL)`,
      `urlencode` is PHP's, and `fetch` performs the GET and yields the
      decoded body, or None when the transport fails. */
  datatype Env = Env(
    respectUrl: string -> bool,
    filterUrl: string -> bool,
    urlencode: string -> string,
    fetch: string -> Option<Json>)

  /** `apiRequest($endpoint)`: refuse when no address is stored, otherwise
      hand the endpoint with trailing `?` and `&` removed to the client. */
  function ApiRequest(st: State, endpoint: string, env: Env): (r: Result<Json, Error>)
    ensures st.url.None? ==> r == Failure(NoAddress)
    ensures st.url.Some? ==> (r.Success? <==> env.fetch(RTrim(endpoint)).Some?)
    ensures r.Success? ==> env.fetch(RTrim(endpoint)) == Some(r.value)
    ensures r.Failure? ==> r.error == NoAddress || r.error == TransportFailure
  {
    if st.url.None? then Failure(NoAddress)
    else
      match env.fetch(RTrim(endpoint))
      case Some(body) => Success(body)
      case None => Failure(TransportFailure)
  }

  /** The target address as PHP interpolates it into a request URL */
  function UrlText(url: Option<string>): string {
    url.GetOr("")
  }

  /** `__get` given an endpoint entry: request it and apply its callback.
      It fails only for a missing address or a failing transport. */
  function Query(st: State, s: Service, env: Env): (r: Result<Json, Error>)
    ensures st.url.None? ==> r == Failure(NoAddress)
    ensures var sent := RTrim(RequestUrl(s, UrlText(st.url), env.urlencode));
      st.url.Some? ==>
        && (r.Success? <==> env.fetch(sent).Some?)
        && (r.Success? ==> r.value == Callback(s, env.fetch(sent).value))
    ensures r.Failure? ==> r.error == NoAddress || r.error == TransportFailure
    ensures r.Success? && s != Testcase ==> r.value.JNum?
  {
    match ApiRequest(st, RequestUrl(s, UrlText(st.url), env.urlencode), env)
    case Failure(e) => Failure(e)
    case Success(body) => Success(Callback(s, body))
  }

  /** `__get($service)` for a service name: lower-case it, look it up (an
      unknown name fails before the address is checked), then query. */
  function Get(st: State, name: string, env: Env): (r: Result<Json, Error>)
    ensures Resolve(name).None? ==> r == Failure(UnknownService(LowerStr(name)))
    ensures Resolve(name).Some? ==> r == Query(st, Resolve(name).value, env)
  {
    match Resolve(name)
    case None => Failure(UnknownService(LowerStr(name)))
    case Some(s) => Query(st, s, env)
  }

  /** Service lookup ignores letter case, error message included */
  lemma GetIgnoresCase(st: State, name: string, env: Env)
    ensures Get(st, name, env) == Get(st, LowerStr(name), env)
  {
    LowerStrIdempotent(name);
  }

  /** A catalog service with no stored address fails with `NoAddress`;
      an unknown name fails with `UnknownService` whatever the address */
  lemma GetErrors(st: State, name: string, env: Env)
    ensures Resolve(name).Some? && st.url.None? ==> Get(st, name, env) == Failure(NoAddress)
    ensures Resolve(name).None? ==> Get(st, name, env).Failure? && Get(st, name, env).error.UnknownService?
  {
  }

  /** The testcase service passes the transport's body through unchanged */
  lemma TestcasePassesThrough(st: State, env: Env)
    requires st.url.Some?
    requires env.fetch(TestcaseUrl).Some?
    ensures Get(st, "testcase", env) == Success(env.fetch(TestcaseUrl).value)
  {
    ResolveName(Testcase, "testcase") by { NameIsLower(Testcase); }
    TrimmedTestcaseUrl();
    assert RequestUrl(Testcase, UrlText(st.url), env.urlencode) == TestcaseUrl;
  }

  /** For a prefix service the client receives the fixed prefix followed by
      the stored address with its own trailing `?` and `&` removed, and a
      non-testcase answer is always an integer. */
  lemma QueryRequestsTrimmedAddress(st: State, s: Service, env: Env)
    requires st.url.Some? && QueryPrefix(s).Some?
    ensures var sent := QueryPrefix(s).value + RTrim(st.url.value);
      && (Query(st, s, env).Success? <==> env.fetch(sent).Some?)
      && (Query(st, s, env).Success? ==> Query(st, s, env).value == Callback(s, env.fetch(sent).value))
      && (Query(st, s, env).Success? ==> Query(st, s, env).value.JNum?)
  {
    TrimmedRequestUrl(s, st.url.value, env.urlencode);
  }

  /** The address `__call` queries with: the first argument when it is a
      valid URL, the stored one otherwise */
  function Override(st: State, arg: Option<string>, env: Env): (r: State)
    ensures r.services == st.services
    ensures arg.Some? && env.filterUrl(arg.value) ==> r.url == arg
    ensures !(arg.Some? && env.filterUrl(arg.value)) ==> r == st
  {
    if arg.Some? && env.filterUrl(arg.value) then st.(url := arg) else st
  }

  /** `__call($service, $arguments)` as written: override the address, query,
      and restore the previous address. The restore is not in a `finally`,
      so when the query throws the object keeps the overriding address. The
      state returned is the object after the call. */
  function Call(st: State, name: string, arg: Option<string>, env: Env): (r: (Result<Json, Error>, State))
    ensures r.0 == Get(Override(st, arg, env), name, env)
    ensures r.0.Success? ==> r.1 == st
    ensures r.0.Failure? ==> r.1 == Override(st, arg, env)
  {
    var tmp := Override(st, arg, env);
    match Get(tmp, name, env)
    case Success(v) => (Success(v), tmp.(url := st.url))
    case Failure(e) => (Failure(e), tmp)
  }

  /** `__call` with the previous address restored on every path: the object
      is left as it was whether or not the query throws. */
  function CallScoped(st: State, name: string, arg: Option<string>, env: Env): (r: (Result<Json, Error>, State))
    ensures r.1 == st
    ensures r.0 == Call(st, name, arg, env).0
  {
    var tmp := Override(st, arg, env);
    (Get(tmp, name, env), tmp.(url := st.url))
  }

  /** A valid override is what the query sees, whatever was stored; an
      invalid or missing one leaves the stored address in use */
  lemma CallUsesOverride(st: State, name: string, arg: Option<string>, env: Env)
    ensures arg.Some? && env.filterUrl(arg.value) ==>
      Call(st, name, arg, env).0 == Get(st.(url := arg), name, env)
    ensures !(arg.Some? && env.filterUrl(arg.value)) ==>
      Call(st, name, arg, env).0 == Get(st, name, env)
  {
  }

  /** As written, a failing query leaves the overriding address behind: an
      unknown service name with a valid override different from the stored
      address changes the object. */
  lemma CallLeaksOverrideOnFailure(st: State, name: string, u: string, env: Env)
    requires Resolve(name).None?
    requires env.filterUrl(u) && st.url != Some(u)
    ensures Call(st, name, Some(u), env).0 == Failure(UnknownService(LowerStr(name)))
    ensures Call(st, name, Some(u), env).1.url == Some(u) != st.url
  {
  }

  /** The corrected call never changes the object, even when it fails */
  lemma CallScopedRestores(st: State, name: string, u: string, env: Env)
    requires Resolve(name).None?
    requires env.filterUrl(u) && st.url != Some(u)
    ensures CallScoped(st, name, Some(u), env).0.Failure?
    ensures CallScoped(st, name, Some(u), env).1.url == st.url
  {
  }

  /** What `__callStatic` returns: a query answer, or, for the names of the
      three declared properties (read directly from inside the class, without
      `__get`), that property of the fresh instance; the client is null. */
  datatype Reply =
    | Answer(value: Json)
    | ServicesProperty(services: map<string, bool>)
    | UrlProperty(url: Option<string>)
    | NullClient

  /** `Socialworth::__callStatic($service, $arguments)`: demand a first
      argument that passes `filter_var`, build an instance on it (whose
      constructor validates it again) and read `$instance->$service`. */
  function CallStatic(name: string, arg: Option<string>, env: Env): (r: Result<Reply, Error>)
    ensures !(arg.Some? && env.filterUrl(arg.value)) ==> r == Failure(NoAddress)
    ensures arg.Some? && env.filterUrl(arg.value) && !Falsy(arg) && !env.respectUrl(arg.value) ==>
      r == Failure(InvalidUrl)
  {
    if arg.None? || !env.filterUrl(arg.value) then Failure(NoAddress)
    else
      match Construct(arg, [], env.respectUrl)
      case Failure(e) => Failure(e)
      case Success(st) =>
        if name == "services" then Success(ServicesProperty(st.services))
        else if name == "url" then Success(UrlProperty(st.url))
        else if name == "client" then Success(NullClient)
        else
          match Get(st, name, env)
          case Success(v) => Success(Answer(v))
          case Failure(e) => Failure(e)
  }

  /** For an address both validators accept, the static entry answers what
      `__get` answers on a default instance holding that address */
  lemma CallStaticQueries(name: string, u: string, env: Env)
    requires env.filterUrl(u) && env.respectUrl(u) && !Falsy(Some(u))
    requires name != "services" && name != "url" && name != "client"
    ensures var g := Get(State(Some(u), Defaults), name, env);
      && (g.Success? ==> CallStatic(name, Some(u), env) == Success(Answer(g.value)))
      && (g.Failure? ==> CallStatic(name, Some(u), env) == Failure(g.error))
  {
  }

  /** The names of the declared properties read the fresh instance's
      property instead of querying: the default map, the address, a null client */
  lemma CallStaticReadsProperties(u: string, env: Env)
    requires env.filterUrl(u) && env.respectUrl(u) && !Falsy(Some(u))
    ensures CallStatic("services", Some(u), env) == Success(ServicesProperty(Defaults))
    ensures CallStatic("url", Some(u), env) == Success(UrlProperty(Some(u)))
    ensures CallStatic("client", Some(u), env) == Success(NullClient)
  {
  }

  // ---------------------------------------------------------------------
  // all()

  /** The object `all()` returns: `total` and one entry per queried service */
  datatype Report = Report(counts: map<string, Json>, total: int)

  /** The number PHP adds for `$response['total'] += $value`; None where PHP
      throws (strings, arrays, objects) */
  function Numeric(v: Json): (r: Option<int>)
    ensures v.JNum? ==> r == Some(v.n)
    ensures v.JNull? ==> r == Some(0)
    ensures v.JBool? ==> r == Some(if v.b then 1 else 0)
    ensures v.JString? || v.JArray? || v.JObject? ==> r.None?
  {
    match v
    case JNum(n) => Some(n)
    case JNull => Some(0)
    case JBool(b) => Some(if b then 1 else 0)
    case _ => None
  }

  /** `$response['total'] += $value` */
  function AddCount(total: int, v: Json): (r: Result<int, Error>)
    ensures r.Success? <==> Numeric(v).Some?
    ensures r.Success? ==> r.value == total + Numeric(v).value
    ensures r.Failure? ==> r.error == UnsupportedOperand
  {
    match Numeric(v)
    case Some(n) => Success(total + n)
    case None => Failure(UnsupportedOperand)
  }

  /** One iteration of the `foreach` of `all()`: an enabled service is
      queried, recorded under its name and added to the total */
  function Step(st: State, ans: Service -> Result<Json, Error>, rep: Report, s: Service): (r: Result<Report, Error>)
    ensures !Enabled(st, s) ==> r == Success(rep)
    ensures Enabled(st, s) && r.Success? ==>
      && ans(s).Success?
      && r.value.counts == rep.counts[Name(s) := ans(s).value]
      && Numeric(ans(s).value).Some?
      && r.value.total == rep.total + Numeric(ans(s).value).value
    ensures Enabled(st, s) ==> (r.Success? <==>
      ans(s).Success? && Numeric(ans(s).value).Some?)
    ensures Enabled(st, s) && ans(s).Failure? ==> r == Failure(ans(s).error)
    ensures r.Failure? ==> Enabled(st, s) && Blames(ans, s, r.error)
  {
    if !Enabled(st, s) then Success(rep)
    else
      match ans(s)
      case Failure(e) => Failure(e)
      case Success(v) =>
        match AddCount(rep.total, v)
        case Failure(e) => Failure(e)
        case Success(t) => Success(Report(rep.counts[Name(s) := v], t))
  }

  /** Error `e` is what service `s` raises in `all()`: its query's exception,
      or PHP's refusal to add its answer */
  predicate Blames(ans: Service -> Result<Json, Error>, s: Service, e: Error) {
    if ans(s).Failure? then e == ans(s).error
    else Numeric(ans(s).value).None? && e == UnsupportedOperand
  }

  /** Some enabled service among `ss` raises `e` */
  predicate RaisedBy(st: State, ans: Service -> Result<Json, Error>, ss: seq<Service>, e: Error) {
    exists s :: s in ss && Enabled(st, s) && Blames(ans, s, e)
  }

  /** The `foreach` of `all()` over the services `ss`, in order; the first
      exception ends the whole call, so every failure is raised by an enabled
      service it visited. */
  function Collect(st: State, ans: Service -> Result<Json, Error>, ss: seq<Service>): (r: Result<Report, Error>)
    ensures r.Failure? ==> RaisedBy(st, ans, ss, r.error)
    decreases |ss|
  {
    if ss == [] then Success(Report(map[], 0))
    else
      match Collect(st, ans, ss[..|ss| - 1])
      case Failure(e) => Failure(e)
      case Success(rep) => Step(st, ans, rep, ss[|ss| - 1])
  }

  /** `all()`: every key of `$services` is visited in order, and exactly the
      catalog keys are queried. Catalog keys keep the default order through
      the constructor and the toggles, and the keys a constructor list adds
      come after them and are skipped, so the visit is the catalog order. */
  function All(st: State, env: Env): (r: Result<Report, Error>)
    ensures r.Success? <==>
      forall s :: Enabled(st, s) ==> Query(st, s, env).Success? && Numeric(Query(st, s, env).value).Some?
    ensures r.Success? ==> r.value.counts.Keys == (set s | s in EnabledIn(st, Order) :: Name(s))
    ensures r.Success? ==> forall s :: Enabled(st, s) ==>
      Name(s) in r.value.counts && r.value.counts[Name(s)] == Query(st, s, env).value
    ensures r.Success? ==> r.value.total == TotalOf(r.value.counts, EnabledIn(st, Order))
  {
    var ans := Answers(st, env);
    AllListed();
    OrderComplete(Twitter);
    CollectComplete(st, ans, Order);
    Collect(st, ans, Order)
  }

  /** A report over distinct services that lists every service: it succeeds
      exactly when each enabled answer succeeds and can be added, and then
      records each enabled answer under its key and sums them */
  lemma CollectComplete(st: State, ans: Service -> Result<Json, Error>, ss: seq<Service>)
    requires Distinct(ss) && forall s :: s in ss
    ensures var r := Collect(st, ans, ss);
      && (r.Success? <==> forall s :: Enabled(st, s) ==> ans(s).Success? && Numeric(ans(s).value).Some?)
      && (r.Success? ==> r.value.counts.Keys == (set s | s in EnabledIn(st, ss) :: Name(s)))
      && (r.Success? ==> forall s :: Enabled(st, s) ==>
            Name(s) in r.value.counts && r.value.counts[Name(s)] == ans(s).value)
      && (r.Success? ==> r.value.total == TotalOf(r.value.counts, EnabledIn(st, ss)))
  {
    CollectSucceeds(st, ans, ss);
    if Collect(st, ans, ss).Success? {
      CollectKeys(st, ans, ss);
      CollectValues(st, ans, ss);
      CollectTotal(st, ans, ss);
    }
  }

  /** Service `s` lets the loop go on: disabled, or answered with a value
      PHP can add */
  predicate Passes(st: State, ans: Service -> Result<Json, Error>, s: Service) {
    Enabled(st, s) ==> ans(s).Success? && Numeric(ans(s).value).Some?
  }

  /** `ss[i]` is the first service of `ss` that does not pass, and it
      raises `e` */
  predicate FailsFirstAt(st: State, ans: Service -> Result<Json, Error>, ss: seq<Service>, i: int, e: Error) {
    && 0 <= i < |ss|
    && Enabled(st, ss[i])
    && Blames(ans, ss[i], e)
    && forall j {:trigger ss[j]} :: 0 <= j < i ==> Passes(st, ans, ss[j])
  }

  /** The loop throws the error of the first enabled service, in visiting
      order, whose query fails or whose answer cannot be added */
  lemma {:induction false} CollectFirstFailure(st: State, ans: Service -> Result<Json, Error>, ss: seq<Service>)
    requires Collect(st, ans, ss).Failure?
    ensures exists i :: FailsFirstAt(st, ans, ss, i, Collect(st, ans, ss).error)
    decreases |ss|
  {
    var init := ss[..|ss| - 1];
    var last := ss[|ss| - 1];
    var e := Collect(st, ans, ss).error;
    if Collect(st, ans, init).Failure? {
      assert Collect(st, ans, init).error == e;
      CollectFirstFailure(st, ans, init);
      var i :| FailsFirstAt(st, ans, init, i, e);
      assert forall j :: 0 <= j <= i ==> ss[j] == init[j];
      assert FailsFirstAt(st, ans, ss, i, e);
    } else {
      CollectSucceeds(st, ans, init);
      assert Step(st, ans, Collect(st, ans, init).value, last).Failure?;
      forall j | 0 <= j < |ss| - 1
        ensures Passes(st, ans, ss[j])
      {
        assert ss[j] == init[j];
        assert init[j] in init;
      }
      assert FailsFirstAt(st, ans, ss, |ss| - 1, e);
    }
  }

  /** Visiting order decides the error: when twitter, visited first, is
      enabled and its fetch fails, the loop throws that failure whatever the
      later services (testcase passing back an array, say) would raise */
  lemma FirstServiceDecides(st: State, ans: Service -> Result<Json, Error>, ss: seq<Service>)
    requires ss == Order
    requires Enabled(st, Twitter) && ans(Twitter) == Failure(TransportFailure)
    ensures Collect(st, ans, ss) == Failure(TransportFailure)
  {
    CollectSucceeds(st, ans, ss);
    assert ss[0] == Twitter;
    CollectFirstFailure(st, ans, ss);
    var i :| FailsFirstAt(st, ans, ss, i, Collect(st, ans, ss).error);
    assert !Passes(st, ans, ss[0]);
    assert i == 0;
  }

  /** `all()` throws the error of the first enabled service, in the order of
      `$services`, whose query fails or whose answer cannot be added */
  lemma AllFirstFailure(st: State, env: Env)
    requires All(st, env).Failure?
    ensures exists i :: FailsFirstAt(st, Answers(st, env), Order, i, All(st, env).error)
  {
    CollectFirstFailure(st, Answers(st, env), Order);
  }

  /** The catalog order lists every service */
  lemma AllListed()
    ensures forall s :: s in Order
  {
    forall s ensures s in Order { OrderComplete(s); }
  }

  /** The query of each service against the object as it stands */
  function Answers(st: State, env: Env): Service -> Result<Json, Error> {
    s => Query(st, s, env)
  }

  /** The enabled services among `ss`, in order */
  function EnabledIn(st: State, ss: seq<Service>): (r: seq<Service>)
    ensures forall s :: s in r ==> s in ss && Enabled(st, s)
    ensures forall s :: s in ss && Enabled(st, s) ==> s in r
    decreases |ss|
  {
    if ss == [] then []
    else
      var last := ss[|ss| - 1];
      EnabledIn(st, ss[..|ss| - 1]) + (if Enabled(st, last) then [last] else [])
  }

  /** The sum of the numeric values recorded for `ss` */
  function TotalOf(counts: map<string, Json>, ss: seq<Service>): int
    decreases |ss|
  {
    if ss == [] then 0
    else
      var n := Name(ss[|ss| - 1]);
      var v := if n in counts then Numeric(counts[n]).GetOr(0) else 0;
      TotalOf(counts, ss[..|ss| - 1]) + v
  }

  /** Recording a name outside `ss` does not move their total */
  lemma {:induction false} TotalOfFrame(counts: map<string, Json>, ss: seq<Service>, n: string, v: Json)
    requires forall s :: s in ss ==> Name(s) != n
    ensures TotalOf(counts[n := v], ss) == TotalOf(counts, ss)
    decreases |ss|
  {
    if ss != [] {
      var init := ss[..|ss| - 1];
      assert forall s :: s in init ==> s in ss;
      TotalOfFrame(counts, init, n, v);
    }
  }

  /** The names recorded by a report are those of the enabled services */
  lemma {:induction false} CollectKeys(st: State, ans: Service -> Result<Json, Error>, ss: seq<Service>)
    requires Collect(st, ans, ss).Success?
    ensures Collect(st, ans, ss).value.counts.Keys == (set s | s in EnabledIn(st, ss) :: Name(s))
    decreases |ss|
  {
    if ss != [] {
      var init := ss[..|ss| - 1];
      CollectKeys(st, ans, init);
    }
  }

  /** In a report over distinct services, each enabled one is recorded with
      the value its query returned */
  lemma {:induction false} CollectValues(st: State, ans: Service -> Result<Json, Error>, ss: seq<Service>)
    requires Distinct(ss)
    requires Collect(st, ans, ss).Success?
    ensures forall s :: s in ss && Enabled(st, s) ==>
      ans(s).Success? &&
      Name(s) in Collect(st, ans, ss).value.counts &&
      Collect(st, ans, ss).value.counts[Name(s)] == ans(s).value
    decreases |ss|
  {
    if ss != [] {
      var init := ss[..|ss| - 1];
      var last := ss[|ss| - 1];
      assert Distinct(init);
      CollectValues(st, ans, init);
      forall s | s in ss && Enabled(st, s)
        ensures ans(s).Success?
        ensures Name(s) in Collect(st, ans, ss).value.counts
        ensures Collect(st, ans, ss).value.counts[Name(s)] == ans(s).value
      {
        if s != last {
          assert s in init;
          if Name(s) == Name(last) {
            NameInjective(s, last);
          }
        }
      }
    }
  }

  /** The last of distinct services does not occur before it */
  lemma LastIsNew(ss: seq<Service>)
    requires Distinct(ss) && ss != []
    ensures forall s :: s in ss[..|ss| - 1] ==> Name(s) != Name(ss[|ss| - 1])
  {
    forall s | s in ss[..|ss| - 1]
      ensures Name(s) != Name(ss[|ss| - 1])
    {
      var j :| 0 <= j < |ss| - 1 && ss[j] == s;
      if Name(s) == Name(ss[|ss| - 1]) {
        NameInjective(s, ss[|ss| - 1]);
      }
    }
  }

  /** The total of a report over distinct services is the sum of the values
      it records for the enabled ones */
  lemma {:induction false} CollectTotal(st: State, ans: Service -> Result<Json, Error>, ss: seq<Service>)
    requires Distinct(ss)
    requires Collect(st, ans, ss).Success?
    ensures Collect(st, ans, ss).value.total == TotalOf(Collect(st, ans, ss).value.counts, EnabledIn(st, ss))
    decreases |ss|
  {
    if ss != [] {
      var init := ss[..|ss| - 1];
      var last := ss[|ss| - 1];
      assert Distinct(init);
      CollectTotal(st, ans, init);
      var rep0 := Collect(st, ans, init).value;
      var e0 := EnabledIn(st, init);
      if Enabled(st, last) {
        var v := ans(last).value;
        LastIsNew(ss);
        assert forall x :: x in e0 ==> Name(x) != Name(last);
        TotalOfFrame(rep0.counts, e0, Name(last), v);
        var e := EnabledIn(st, ss);
        var rep := Collect(st, ans, ss).value;
        assert e == e0 + [last];
        assert e[..|e| - 1] == e0;
        assert rep.counts == rep0.counts[Name(last) := v];
        assert rep.total == rep0.total + Numeric(v).value;
        assert TotalOf(rep.counts, e) == TotalOf(rep.counts, e0) + Numeric(v).value;
      } else {
        assert EnabledIn(st, ss) == e0;
      }
    }
  }

  /** A report succeeds exactly when every enabled service's query succeeds
      with a value PHP can add */
  lemma {:induction false} CollectSucceeds(st: State, ans: Service -> Result<Json, Error>, ss: seq<Service>)
    ensures Collect(st, ans, ss).Success? <==>
      forall s :: s in ss && Enabled(st, s) ==>
        ans(s).Success? && Numeric(ans(s).value).Some?
    decreases |ss|
  {
    if ss != [] {
      var init := ss[..|ss| - 1];
      CollectSucceeds(st, ans, init);
      assert forall s :: s in ss <==> s in init || s == ss[|ss| - 1];
    }
  }

  /** `all()` holds one entry per enabled catalog service, equal to what
      `__get` returns for that name, and `total` is their sum */
  lemma AllReport(st: State, env: Env)
    requires All(st, env).Success?
    ensures var rep := All(st, env).value;
      && rep.counts.Keys == (set s | s in EnabledIn(st, Order) :: Name(s))
      && (forall s :: Enabled(st, s) ==> Get(st, Name(s), env) == Success(rep.counts[Name(s)]))
      && rep.total == TotalOf(rep.counts, EnabledIn(st, Order))
  {
    var ans := Answers(st, env);
    var rep := Collect(st, ans, Order).value;
    OrderComplete(Twitter);
    CollectKeys(st, ans, Order);
    CollectTotal(st, ans, Order);
    CollectValues(st, ans, Order);
    forall s | Enabled(st, s)
      ensures Get(st, Name(s), env) == Success(rep.counts[Name(s)])
    {
      OrderComplete(s);
      assert ans(s).Success? && rep.counts[Name(s)] == ans(s).value;
      GetName(st, s, env);
    }
  }

  /** `__get` on a catalog name is that service's query */
  lemma GetName(st: State, s: Service, env: Env)
    ensures Get(st, Name(s), env) == Query(st, s, env)
  {
    NameIsLower(s);
    ResolveName(s, Name(s));
  }

  /** `all()` fails exactly when some enabled service's query fails or
      yields a value PHP cannot add (only testcase can yield one) */
  lemma AllSucceeds(st: State, env: Env)
    ensures All(st, env).Success? <==>
      forall s :: Enabled(st, s) ==> Query(st, s, env).Success? && Numeric(Query(st, s, env).value).Some?
  {
    CollectSucceeds(st, Answers(st, env), Order);
    AllListed();
  }

  /** With nothing enabled, `all()` is `{total: 0}` */
  lemma {:induction false} CollectNothingEnabled(st: State, ans: Service -> Result<Json, Error>, ss: seq<Service>)
    requires forall s :: !Enabled(st, s)
    ensures Collect(st, ans, ss) == Success(Report(map[], 0))
    decreases |ss|
  {
    if ss != [] {
      CollectNothingEnabled(st, ans, ss[..|ss| - 1]);
    }
  }

  lemma AllNothingEnabled(st: State, env: Env)
    requires forall s :: !Enabled(st, s)
    ensures All(st, env) == Success(Report(map[], 0))
  {
    CollectNothingEnabled(st, Answers(st, env), Order);
  }

  /** Without a stored address `all()` fails with `NoAddress` as soon as one
      service is enabled */
  lemma {:induction false} CollectWithoutAddress(st: State, ans: Service -> Result<Json, Error>, ss: seq<Service>)
    requires forall s :: ans(s) == Failure(NoAddress)
    ensures (exists s :: s in ss && Enabled(st, s)) ==> Collect(st, ans, ss) == Failure(NoAddress)
    ensures (forall s :: s in ss ==> !Enabled(st, s)) ==> Collect(st, ans, ss) == Success(Report(map[], 0))
    decreases |ss|
  {
    if ss != [] {
      var init := ss[..|ss| - 1];
      CollectWithoutAddress(st, ans, init);
      assert forall s :: s in ss <==> s in init || s == ss[|ss| - 1];
    }
  }

  lemma AllWithoutAddress(st: State, env: Env)
    requires st.url.None?
    requires exists s :: Enabled(st, s)
    ensures All(st, env) == Failure(NoAddress)
  {
    var s :| Enabled(st, s);
    OrderComplete(s);
    assert forall x :: Answers(st, env)(x) == Failure(NoAddress);
    CollectWithoutAddress(st, Answers(st, env), Order);
  }
}

=== FILE: endpoint.dfy ===
/** `rtrim($endpoint, '?&')`: the clean-up applied to every request URL
    before it is handed to the HTTP client. */
module Endpoint {

  /** The characters `rtrim` is asked to strip */
  predicate Stripped(c: char) {
    c == '?' || c == '&'
  }

  /** A string that `rtrim` leaves alone: empty, or ending in a kept character */
  predicate Clean(s: string) {
    s == [] || !Stripped(s[|s| - 1])
  }

  /** `rtrim(s, '?&')`: the longest prefix of `s` that does not end in `?`
      or `&`; everything it drops is a `?` or a `&`. */
  function RTrim(s: string): (r: string)
    ensures r <= s
    ensures Clean(r)
    ensures forall i :: |r| <= i < |s| ==> Stripped(s[i])
    decreases |s|
  {
    if |s| > 0 && Stripped(s[|s| - 1]) then RTrim(s[..|s| - 1]) else s
  }

  /** The three properties above determine the trimmed string: any prefix
      that is clean and is followed only by stripped characters is it. */
  lemma {:induction false} RTrimUnique(s: string, p: string)
    requires p <= s
    requires Clean(p)
    requires forall i :: |p| <= i < |s| ==> Stripped(s[i])
    ensures RTrim(s) == p
    decreases |s|
  {
    if |s| > |p| {
      assert Stripped(s[|s| - 1]);
      var t := s[..|s| - 1];
      assert p <= t;
      forall i | |p| <= i < |t|
        ensures Stripped(t[i])
      {
        assert t[i] == s[i];
      }
      RTrimUnique(t, p);
    } else {
      assert p == s;
    }
  }

  /** Trimming twice is trimming once */
  lemma RTrimIdempotent(s: string)
    ensures RTrim(RTrim(s)) == RTrim(s)
  {
    RTrimUnique(RTrim(s), RTrim(s));
  }

  /** A clean string is returned unchanged */
  lemma RTrimClean(s: string)
    requires Clean(s)
    ensures RTrim(s) == s
  {
    RTrimUnique(s, s);
  }

  /** Behind a fixed clean prefix, trimming only touches the appended part:
      `rtrim(prefix . url)` is `prefix . rtrim(url)` whenever `prefix` ends in
      a kept character. */
  lemma {:induction false} RTrimBehindPrefix(prefix: string, u: string)
    requires |prefix| > 0 && Clean(prefix)
    ensures RTrim(prefix + u) == prefix + RTrim(u)
  {
    var s := prefix + u;
    var t := RTrim(u);
    var p := prefix + t;
    assert t <= u;
    assert p <= s by {
      forall i | 0 <= i < |p|
        ensures p[i] == s[i]
      {
        if i >= |prefix| {
          assert p[i] == t[i - |prefix|] == u[i - |prefix|];
        }
      }
    }
    assert Clean(p) by {
      if t != [] {
        assert p[|p| - 1] == t[|t| - 1];
      } else {
        assert p == prefix;
      }
    }
    forall i | |p| <= i < |s|
      ensures Stripped(s[i])
    {
      assert s[i] == u[i - |prefix|];
    }
    RTrimUnique(s, p);
  }
}

=== FILE: errors.dfy ===
/** The failures of the model. Three are exceptions `BenAllfree\Socialworth`
    throws, one per (exception class, message) pair that the modelled entry
    points can reach; the other two stand for a failing HTTP client and for
    PHP's refusal of an arithmetic operand. */
module Errors {

  datatype Error =
      /** `InvalidArgumentException`: "The address provided is not a valid URL." */
    | InvalidUrl
      /** `InvalidArgumentException`: "You must specify an address to query." */
    | NoAddress
      /** `Exception`: "Unknown service %s", carrying the lower-cased name */
    | UnknownService(name: string)
      /** the HTTP client could not deliver a response */
    | TransportFailure
      /** PHP refuses `int + value` for a value that is not a number, null or bool */
    | UnsupportedOperand
}

=== FILE: parsers.dfy ===
/** The `'callback'` entries of `apiEndpoints()`: each turns one decoded
    service response into a share count. None of them fails on a missing or
    malformed field; they degrade to 0. The testcase callback passes the
    response through unchanged. */
module Parsers {
  import opened Wrappers
  import opened PhpValues
  import opened Catalog

  /** `isset($v[key]) && $v[key] ? (int)$v[key] : 0` */
  function CountAt(field: Option<Json>): (r: int)
    ensures field.Some? && Truthy(field.value) ==> r == ToInt(field.value)
    ensures field.None? || !Truthy(field.value) ==> r == 0
  {
    if field.Some? && Truthy(field.value) then ToInt(field.value) else 0
  }

  /** `isset($v[key]) ? (int)$v[key] : 0` */
  function IntAt(field: Option<Json>): (r: int)
    ensures field.Some? ==> r == ToInt(field.value)
    ensures field.None? ==> r == 0
  {
    if field.Some? then ToInt(field.value) else 0
  }

  /** `$f(v)` when the field is present, absent otherwise */
  function Then(field: Option<Json>, key: string): Option<Json> {
    if field.Some? then Field(field.value, key) else None
  }

  /** facebook: `data[0].total_count`. A missing field anywhere on that path
      gives 0; an integer there reads as itself. */
  function FacebookCount(resp: Json): (r: int)
    ensures var d := Field(resp, "data");
      var t := if d.Some? then Then(First(d.value), "total_count") else None;
      && (t.None? ==> r == 0)
      && (t.Some? && t.value.JNum? ==> r == t.value.n)
  {
    if Truthy(resp) then
      var data := Field(resp, "data");
      var first := if data.Some? then First(data.value) else None;
      CountAt(Then(first, "total_count"))
    else 0
  }

  /** twitter, linkedin and pinterest: the top-level `count`. A response that
      is not an object, or lacks `count`, gives 0; an integer reads as itself. */
  function CountField(resp: Json): (r: int)
    ensures !resp.JObject? || Field(resp, "count").None? ==> r == 0
    ensures Field(resp, "count").Some? && Field(resp, "count").value.JNum? ==> r == Field(resp, "count").value.n
  {
    CountAt(Field(resp, "count"))
  }

  /** stumbleupon: `result.views`. A missing field on that path gives 0; an
      integer reads as itself. */
  function StumbleUponCount(resp: Json): (r: int)
    ensures var v := Then(Field(resp, "result"), "views");
      && (v.None? ==> r == 0)
      && (v.Some? && v.value.JNum? ==> r == v.value.n)
  {
    CountAt(Then(Field(resp, "result"), "views"))
  }

  /** reddit, one story: `(int)$story['data']['ups']` when set. A story
      without `data.ups` adds 0; an integer there adds itself. */
  function Ups(story: Json): (r: int)
    ensures var u := Then(Field(story, "data"), "ups");
      && (u.None? ==> r == 0)
      && (u.Some? && u.value.JNum? ==> r == u.value.n)
  {
    IntAt(Then(Field(story, "data"), "ups"))
  }

  /** The sum of a list of integers */
  function Sum(xs: seq<int>): int {
    if xs == [] then 0 else xs[0] + Sum(xs[1..])
  }

  /** What each story adds to the reddit sum */
  function UpsOf(stories: seq<Json>): (r: seq<int>)
    ensures |r| == |stories|
  {
    seq(|stories|, i requires 0 <= i < |stories| => Ups(stories[i]))
  }

  /** No story adds a negative number of ups */
  predicate UpsNonNegative(stories: seq<Json>) {
    forall i :: 0 <= i < |stories| ==> Ups(stories[i]) >= 0
  }

  /** The reddit loop over `data.children`: its running total ends as the
      sum of what each story adds */
  function SumUps(stories: seq<Json>): (r: int)
    ensures r == Sum(UpsOf(stories))
  {
    if stories == [] then 0
    else
      assert UpsOf(stories)[1..] == UpsOf(stories[1..]);
      Ups(stories[0]) + SumUps(stories[1..])
  }

  /** When no story adds a negative number of ups, neither does the loop */
  lemma {:induction false} SumUpsNonNegative(stories: seq<Json>)
    requires UpsNonNegative(stories)
    ensures SumUps(stories) >= 0
  {
    if stories != [] {
      assert UpsNonNegative(stories[1..]) by {
        assert forall i :: 0 <= i < |stories| - 1 ==> stories[1..][i] == stories[i + 1];
      }
      SumUpsNonNegative(stories[1..]);
    }
  }

  /** reddit: the sum of `ups` over `data.children`, when that is set and
      truthy. The truthiness test never changes the answer: a falsy
      `children` has nothing to visit. */
  function RedditCount(resp: Json): (r: int)
    ensures var children := Then(Field(resp, "data"), "children");
      && (children.None? ==> r == 0)
      && (children.Some? ==> r == SumUps(Elements(children.value)))
  {
    var children := Then(Field(resp, "data"), "children");
    if children.Some? && Truthy(children.value) then SumUps(Elements(children.value)) else 0
  }

  /** hackernews, one result: 1, plus `item.points` and `item.num_comments`
      when each is set. A result without `item` scores 1; integer points
      and comments add themselves. */
  function Score(story: Json): (r: int)
    ensures Field(story, "item").None? ==> r == 1
    ensures var p := Then(Field(story, "item"), "points");
      var c := Then(Field(story, "item"), "num_comments");
      (p.None? || p.value.JNum?) && (c.None? || c.value.JNum?) ==>
        r == 1 + (if p.Some? then p.value.n else 0) + (if c.Some? then c.value.n else 0)
  {
    var item := Field(story, "item");
    1 + IntAt(Then(item, "points")) + IntAt(Then(item, "num_comments"))
  }

  /** What each result adds to the hackernews sum */
  function ScoresOf(stories: seq<Json>): (r: seq<int>)
    ensures |r| == |stories|
  {
    seq(|stories|, i requires 0 <= i < |stories| => Score(stories[i]))
  }

  /** The hackernews loop over `results`: its running total ends as the sum
      of what each result adds */
  function SumScores(stories: seq<Json>): (r: int)
    ensures r == Sum(ScoresOf(stories))
  {
    if stories == [] then 0
    else
      assert ScoresOf(stories)[1..] == ScoresOf(stories[1..]);
      Score(stories[0]) + SumScores(stories[1..])
  }

  /** hackernews: the score sum over `results`, when the response and
      `results` are truthy. Neither test changes the answer: a response
      holding `results` is a non-empty object, and a falsy `results` has
      nothing to visit. */
  function HackerNewsCount(resp: Json): (r: int)
    ensures Field(resp, "results").None? ==> r == 0
    ensures Field(resp, "results").Some? ==> r == SumScores(Elements(Field(resp, "results").value))
  {
    var results := Field(resp, "results");
    if Truthy(resp) && results.Some? && Truthy(results.value) then SumScores(Elements(results.value)) else 0
  }

  /** The callback of service `s` applied to its response. Every callback but
      testcase returns an integer; testcase returns its argument. */
  function Callback(s: Service, resp: Json): (r: Json)
    ensures s != Testcase ==> r.JNum?
    ensures s == Testcase ==> r == resp
  {
    match s
    case Testcase => resp
    case Facebook => JNum(FacebookCount(resp))
    case Pinterest => JNum(CountField(resp))
    case Twitter => JNum(CountField(resp))
    case LinkedIn => JNum(CountField(resp))
    case StumbleUpon => JNum(StumbleUponCount(resp))
    case Reddit => JNum(RedditCount(resp))
    case HackerNews => JNum(HackerNewsCount(resp))
  }

  // ---------------------------------------------------------------------
  // Response shapes each service documents, and the round trips through
  // the callbacks.

  /** `{"count": n}` */
  function CountReply(n: int): Json {
    Single("count", JNum(n))
  }

  /** `{"data": [{"total_count": n}]}` */
  function FacebookReply(n: int): Json {
    Single("data", JArray([Single("total_count", JNum(n))]))
  }

  /** `{"result": {"views": n}}` */
  function StumbleUponReply(n: int): Json {
    Single("result", Single("views", JNum(n)))
  }

  /** One reddit child `{"data": {"ups": u}}` */
  function RedditChild(u: int): Json {
    Single("data", Single("ups", JNum(u)))
  }

  function RedditChildren(ups: seq<int>): (r: seq<Json>)
    ensures |r| == |ups|
  {
    seq(|ups|, i requires 0 <= i < |ups| => RedditChild(ups[i]))
  }

  /** `{"data": {"children": [child...]}}` */
  function RedditReply(ups: seq<int>): Json {
    Single("data", Single("children", JArray(RedditChildren(ups))))
  }

  /** One hackernews result `{"item": {"points": p, "num_comments": c}}` */
  function HackerNewsResult(points: int, comments: int): Json {
    Single("item", JObject([("points", JNum(points)), ("num_comments", JNum(comments))]))
  }

  function HackerNewsResults(stories: seq<(int, int)>): (r: seq<Json>)
    ensures |r| == |stories|
  {
    seq(|stories|, i requires 0 <= i < |stories| => HackerNewsResult(stories[i].0, stories[i].1))
  }

  /** `{"results": [result...]}` */
  function HackerNewsReply(stories: seq<(int, int)>): Json {
    Single("results", JArray(HackerNewsResults(stories)))
  }

  function Points(stories: seq<(int, int)>): seq<int> {
    seq(|stories|, i requires 0 <= i < |stories| => stories[i].0)
  }

  function Comments(stories: seq<(int, int)>): seq<int> {
    seq(|stories|, i requires 0 <= i < |stories| => stories[i].1)
  }

  /** The single-count services read back the count they were sent, for
      every integer (a zero count reads as 0 through the falsy branch). */
  lemma ScalarRoundTrip(n: int)
    ensures CountField(CountReply(n)) == n
    ensures FacebookCount(FacebookReply(n)) == n
    ensures StumbleUponCount(StumbleUponReply(n)) == n
  {
    FieldOfSingle("count", JNum(n));
    FieldOfSingle("data", JArray([Single("total_count", JNum(n))]));
    FieldOfSingle("total_count", JNum(n));
    FieldOfSingle("result", Single("views", JNum(n)));
    FieldOfSingle("views", JNum(n));
  }

  /** The reddit sum splits over concatenated child lists */
  lemma {:induction false} SumUpsAppend(a: seq<Json>, b: seq<Json>)
    ensures SumUps(a + b) == SumUps(a) + SumUps(b)
  {
    if a != [] {
      assert (a + b)[1..] == a[1..] + b;
      SumUpsAppend(a[1..], b);
    } else {
      assert a + b == b;
    }
  }

  /** A child without `data.ups` adds nothing to the reddit sum */
  lemma SumUpsSkipsMissing(a: seq<Json>, story: Json)
    requires Then(Field(story, "data"), "ups").None?
    ensures SumUps(a + [story]) == SumUps(a)
  {
    SumUpsAppend(a, [story]);
  }

  /** The reddit callback reads back the sum of the `ups` it was sent */
  lemma {:induction false} RedditRoundTrip(ups: seq<int>)
    ensures RedditCount(RedditReply(ups)) == Sum(ups)
  {
    var cs := RedditChildren(ups);
    FieldOfSingle("data", Single("children", JArray(cs)));
    FieldOfSingle("children", JArray(cs));
    if ups == [] {
      assert !Truthy(JArray(cs));
    } else {
      SumUpsOfChildren(ups);
    }
  }

  lemma {:induction false} SumUpsOfChildren(ups: seq<int>)
    ensures SumUps(RedditChildren(ups)) == Sum(ups)
  {
    if ups != [] {
      var cs := RedditChildren(ups);
      assert cs[1..] == RedditChildren(ups[1..]);
      FieldOfSingle("data", Single("ups", JNum(ups[0])));
      FieldOfSingle("ups", JNum(ups[0]));
      assert Ups(cs[0]) == ups[0];
      SumUpsOfChildren(ups[1..]);
    }
  }

  /** The hackernews sum is the number of results plus all points plus all
      comments */
  lemma {:induction false} HackerNewsDecomposes(stories: seq<(int, int)>)
    ensures SumScores(HackerNewsResults(stories)) == |stories| + Sum(Points(stories)) + Sum(Comments(stories))
  {
    if stories != [] {
      var rs := HackerNewsResults(stories);
      assert rs[1..] == HackerNewsResults(stories[1..]);
      assert Points(stories)[1..] == Points(stories[1..]);
      assert Comments(stories)[1..] == Comments(stories[1..]);
      var (p, c) := stories[0];
      var item := JObject([("points", JNum(p)), ("num_comments", JNum(c))]);
      FieldOfSingle("item", item);
      FieldOfPair("points", JNum(p), "num_comments", JNum(c));
      assert Score(rs[0]) == 1 + p + c;
      HackerNewsDecomposes(stories[1..]);
    }
  }

  /** The hackernews callback reads back one per result plus its points and
      comments */
  lemma HackerNewsRoundTrip(stories: seq<(int, int)>)
    ensures HackerNewsCount(HackerNewsReply(stories)) == |stories| + Sum(Points(stories)) + Sum(Comments(stories))
  {
    var rs := HackerNewsResults(stories);
    FieldOfSingle("results", JArray(rs));
    HackerNewsDecomposes(stories);
  }

  /** With non-negative points and comments, every result counts at least once */
  lemma {:induction false} SumScoresAtLeastResults(stories: seq<Json>)
    requires forall i :: 0 <= i < |stories| ==>
      IntAt(Then(Field(stories[i], "item"), "points")) >= 0 &&
      IntAt(Then(Field(stories[i], "item"), "num_comments")) >= 0
    ensures SumScores(stories) >= |stories|
  {
    if stories != [] {
      assert Score(stories[0]) >= 1;
      assert forall i :: 0 <= i < |stories| - 1 ==> stories[1..][i] == stories[i + 1];
      SumScoresAtLeastResults(stories[1..]);
    }
  }

  /** A result whose item is missing still scores 1 */
  lemma ScoreWithoutItem(story: Json)
    requires Field(story, "item").None?
    ensures Score(story) == 1
  {
  }

  /** A `children` object that repeats a key counts that key once, with the
      story given last: `{"a": 3 ups, "a": 5 ups}` gives 5, not 8 */
  lemma RedditRepeatedKey()
    ensures RedditCount(Single("data", Single("children",
      JObject([("a", RedditChild(3)), ("a", RedditChild(5))])))) == 5
  {
    var children := JObject([("a", RedditChild(3)), ("a", RedditChild(5))]);
    ElementsVisitsKeyOnce("a", RedditChild(3), RedditChild(5));
    FieldOfSingle("data", Single("children", children));
    FieldOfSingle("children", children);
    FieldOfSingle("data", Single("ups", JNum(5)));
    FieldOfSingle("ups", JNum(5));
    assert Elements(children) == [RedditChild(5)];
    assert SumUps([RedditChild(5)]) == 5 + SumUps([]);
  }

  /** Absent, null or empty `data.children` gives 0, whether or not `data`
      is there */
  lemma RedditEmptyCountsZero(resp: Json)
    requires Then(Field(resp, "data"), "children") in {None, Some(JArray([])), Some(JObject([]))}
    ensures RedditCount(resp) == 0
  {
  }

  /** Absent, null or empty `results` gives 0 */
  lemma HackerNewsEmptyCountsZero(resp: Json)
    requires Field(resp, "results") in {None, Some(JArray([])), Some(JObject([]))}
    ensures HackerNewsCount(resp) == 0
  {
  }

  /** The worked facebook examples: 42 reads back, an empty first entry reads 0 */
  lemma FacebookExamples()
    ensures FacebookCount(FacebookReply(42)) == 42
    ensures FacebookCount(Single("data", JArray([JObject([])]))) == 0
  {
    ScalarRoundTrip(42);
    FieldOfSingle("data", JArray([JObject([])]));
  }

  /** The worked reddit example: children with 3 and 5 ups give 8 */
  lemma RedditExample()
    ensures RedditCount(RedditReply([3, 5])) == 8
  {
    RedditRoundTrip([3, 5]);
    assert [3, 5][1..] == [5];
    assert [5][1..] == [];
  }

  /** The worked hackernews example: one result with 2 points and 1 comment gives 4 */
  lemma HackerNewsExample()
    ensures HackerNewsCount(HackerNewsReply([(2, 1)])) == 4
  {
    HackerNewsRoundTrip([(2, 1)]);
    assert Points([(2, 1)]) == [2];
    assert Comments([(2, 1)]) == [1];
    assert [2][1..] == [];
  }
}

=== FILE: php_values.dfy ===
/** A decoded JSON document as the PHP callbacks see it, together with the
    three PHP primitives they apply to it: `isset`, truthiness (`(bool)`) and
    the `(int)` cast. Numbers are integers; an object is its member list in
    document order. A key that occurs more than once is one entry after
    decoding: it keeps the position of its first occurrence and the value of
    its last. */
module PhpValues {
  import opened Wrappers

  datatype Json =
    | JNull
    | JBool(b: bool)
    | JNum(n: int)
    | JString(s: string)
    | JArray(items: seq<Json>)
    | JObject(members: seq<(string, Json)>)

  /** PHP truthiness of a value, `(bool)$v`: null, false, 0, "", "0" and
      empty arrays are false. An object is read as the associative array the
      twitter, linkedin and reddit callbacks receive, so an empty object is
      false too; the callbacks that decode the body themselves receive an
      object, which PHP always counts as true. */
  predicate Truthy(v: Json)
    ensures Truthy(v) ==> !v.JNull?
    ensures v.JNum? ==> (Truthy(v) <==> v.n != 0)
    ensures v.JArray? ==> (Truthy(v) <==> v.items != [])
    ensures v.JObject? ==> (Truthy(v) <==> v.members != [])
  {
    match v
    case JNull => false
    case JBool(b) => b
    case JNum(n) => n != 0
    case JString(s) => s != "" && s != "0"
    case JArray(xs) => |xs| > 0
    case JObject(ms) => |ms| > 0
  }

  /** `(int)$v`. A string converts to 0 here (its numeric prefix is not
      modelled); an array converts to 1 when it has elements. */
  function ToInt(v: Json): (r: int)
    ensures v.JNum? ==> r == v.n
    ensures !Truthy(v) ==> r == 0
    ensures !v.JNum? && !v.JString? ==> (r == 1 <==> Truthy(v))
  {
    match v
    case JNull => 0
    case JBool(b) => if b then 1 else 0
    case JNum(n) => n
    case JString(_) => 0
    case JArray(xs) => if |xs| > 0 then 1 else 0
    case JObject(ms) => if |ms| > 0 then 1 else 0
  }

  /** No member after position `i` is named `key` */
  predicate LastWith(ms: seq<(string, Json)>, key: string, i: nat) {
    forall j :: i < j < |ms| ==> ms[j].0 != key
  }

  /** The value of the last member named `key`: when a document repeats a
      key, decoding keeps the value that comes last */
  function Lookup(ms: seq<(string, Json)>, key: string): (r: Option<Json>)
    ensures r.Some? <==> exists i :: 0 <= i < |ms| && ms[i].0 == key
    ensures r.Some? ==> exists i :: 0 <= i < |ms| && ms[i] == (key, r.value) && LastWith(ms, key, i)
    decreases |ms|
  {
    if ms == [] then None
    else if ms[|ms| - 1].0 == key then Some(ms[|ms| - 1].1)
    else
      var init := ms[..|ms| - 1];
      var r := Lookup(init, key);
      assert forall i :: 0 <= i < |init| ==> init[i] == ms[i];
      r
  }

  /** `isset($v[key]) ? $v[key] : absent` for a non-numeric key: present
      exactly when `v` is an object whose member `key` is set and not null,
      and then it is that member's value. */
  function Field(v: Json, key: string): (r: Option<Json>)
    ensures r.Some? ==> v.JObject? && r == Lookup(v.members, key) && !r.value.JNull?
    ensures r.Some? ==> (key, r.value) in v.members
    ensures v.JObject? && Lookup(v.members, key).Some? && !Lookup(v.members, key).value.JNull? ==>
      r == Lookup(v.members, key)
    ensures v.JObject? && (forall i :: 0 <= i < |v.members| ==> v.members[i].0 != key) ==> r.None?
  {
    match v
    case JObject(ms) =>
      (match Lookup(ms, key)
       case Some(x) => if x.JNull? then None else Some(x)
       case None => None)
    case _ => None
  }

  /** `isset($v[0]) ? $v[0] : absent`, the first element of a list */
  function First(v: Json): (r: Option<Json>)
    ensures r.Some? ==> v.JArray? && |v.items| > 0 && r.value == v.items[0] && !r.value.JNull?
    ensures v.JArray? && |v.items| > 0 && !v.items[0].JNull? ==> r.Some?
  {
    match v
    case JArray(xs) => if |xs| > 0 && !xs[0].JNull? then Some(xs[0]) else None
    case _ => None
  }

  /** The distinct member names of `ms`, each once, in the order of its
      first occurrence: the keys of the array decoding builds */
  function MemberKeys(ms: seq<(string, Json)>): (ks: seq<string>)
    ensures forall x :: x in ks <==> exists j :: 0 <= j < |ms| && ms[j].0 == x
    ensures forall i, j :: 0 <= i < j < |ks| ==> ks[i] != ks[j]
    ensures |ks| <= |ms|
    ensures forall i :: 0 <= i < |ks| ==> Lookup(ms, ks[i]).Some?
    decreases |ms|
  {
    if ms == [] then []
    else
      var init := ms[..|ms| - 1];
      var k := ms[|ms| - 1].0;
      var ks := MemberKeys(init);
      assert forall j :: 0 <= j < |init| ==> init[j] == ms[j];
      if k in ks then ks else ks + [k]
  }

  /** The keys of a prefix of the document come first, in the same order:
      appending members only ever appends keys */
  lemma {:induction false} MemberKeysPrefix(ms: seq<(string, Json)>, n: nat)
    requires n <= |ms|
    ensures MemberKeys(ms[..n]) <= MemberKeys(ms)
    decreases |ms|
  {
    if n < |ms| {
      var init := ms[..|ms| - 1];
      assert ms[..n] == init[..n];
      MemberKeysPrefix(init, n);
    } else {
      assert ms[..n] == ms;
    }
  }

  /** The values `foreach ($v as $x)` visits: a list's items; for an object,
      one value per distinct key, in order of first occurrence, holding the
      last value given for that key (decoding overwrites a repeated key in
      place); nothing for a scalar (PHP warns and skips the loop). */
  function Elements(v: Json): (r: seq<Json>)
    ensures v.JArray? ==> r == v.items
    ensures v.JObject? ==> |r| == |MemberKeys(v.members)|
    ensures v.JObject? ==> forall i :: 0 <= i < |r| ==> Lookup(v.members, MemberKeys(v.members)[i]) == Some(r[i])
    ensures !v.JArray? && !v.JObject? ==> r == []
  {
    match v
    case JArray(xs) => xs
    case JObject(ms) =>
      var ks := MemberKeys(ms);
      seq(|ks|, i requires 0 <= i < |ks| => Lookup(ms, ks[i]).value)
    case _ => []
  }

  /** A list or object is truthy exactly when `foreach` has something to
      visit in it */
  lemma TruthyIffVisits(v: Json)
    requires v.JArray? || v.JObject?
    ensures Truthy(v) <==> Elements(v) != []
  {
    if v.JObject? && v.members != [] {
      assert v.members[0].0 in MemberKeys(v.members);
    }
  }

  /** A key given twice is visited once, with the value given last */
  lemma ElementsVisitsKeyOnce(key: string, first: Json, last: Json)
    ensures Elements(JObject([(key, first), (key, last)])) == [last]
  {
    var ms := [(key, first), (key, last)];
    assert ms[..1] == [(key, first)];
    assert MemberKeys(ms[..1]) == [key];
    assert MemberKeys(ms) == [key];
  }

  /** A single-member object `{key: value}` */
  function Single(key: string, value: Json): Json {
    JObject([(key, value)])
  }

  /** `isset` finds either member of a two-member object with distinct keys */
  lemma FieldOfPair(k1: string, v1: Json, k2: string, v2: Json)
    requires k1 != k2 && !v1.JNull? && !v2.JNull?
    ensures Field(JObject([(k1, v1), (k2, v2)]), k1) == Some(v1)
    ensures Field(JObject([(k1, v1), (k2, v2)]), k2) == Some(v2)
  {
    var ms := [(k1, v1), (k2, v2)];
    assert ms[..1] == [(k1, v1)];
    assert Lookup(ms[..1], k1) == Some(v1);
  }

  /** A repeated key reads as its last occurrence */
  lemma FieldKeepsLast(key: string, first: Json, last: Json)
    requires !last.JNull?
    ensures Field(JObject([(key, first), (key, last)]), key) == Some(last)
  {
  }

  /** `isset` finds the member of a one-member object unless it is null */
  lemma FieldOfSingle(key: string, value: Json)
    ensures Field(Single(key, value), key) == (if value.JNull? then None else Some(value))
  {
  }
}

=== FILE: wrappers.dfy ===
/** The two wrappers used throughout the model: an optional value, and a
    result that is either a value or the error the PHP code throws. */
module Wrappers {

  datatype Option<+T> = None | Some(value: T) {

    /** The wrapped value, or `default` when there is none */
    function GetOr(default: T): T {
      match this
      case Some(v) => v
      case None => default
    }
  }

  datatype Result<+R, +E> = Success(value: R) | Failure(error: E)
}
